=== FILE: README.md ===
# TwoDeeWars gameplay rules in Dafny

This project models the gameplay rules of TwoDeeWars, a small Kivy arcade shooter. The player's ship is dragged with one finger. A second finger fires "pews" (projectiles). Enemies fly in from the right. Killing an enemy scores its position times its speed. Contact with the ship ends the run. A tap on the retry caption starts a new run and keeps the best score.

Everything is a pure function over an immutable `GameState` record:

- `geometry.dfy` (`Geometry`): the window constants `W` and `H`, pygame's rectangle test, and Python's `int()` truncation.
- `entities.dfy` (`Entities`): the ship's four unit moves and the drag built from them. It also holds the ship's sampled-outline hit test, pew flight and destroy, and the enemy's hit test, destroy and reward.
- `lists.dfy` (`Lists`): the filtering comprehension used by the per-tick prune, and `list.remove`.
- `game.dfy` (`Game`): the state, its invariant `Valid`, and `reset_state`. It also holds the three touch handlers, the tick (prune, pew flight, hit loop, game over, spawn, steering), `end_game` and the four-phase caption toggle.
- `play.dfy` (`Play`): the host's callbacks as events. It proves that every run of events from start-up keeps the invariant and never lowers the best score.
- `as_written.dfy` (`AsWritten`): two touch handlers exactly as written, including the exceptions they raise, with the inputs that reach those exceptions (see Findings).

The Kivy `Clock` is replaced by two flags: `tickScheduled` for the 60 Hz `update` and `toggleScheduled` for the 1 Hz `toogle_score`. The top-left caption (current score, "64M3 0V3R" or "CL1CK 2 R3TRY") is part of the state as a `Caption` value, not as drawn glyphs. Touch coordinates and times are `real`. Positions are `int`.

As in the code, a destroyed pew or enemy stays in its list until the next tick's prune. It is not removed at the moment of the hit. Destroying moves it past the prune line, and a prune drops whatever is past that line (`Game.PruneIdempotent`). Within one tick a destroyed enemy pays out once (`Game.HitPews`). The same tick then steers the destroyed enemy. It is parked far from the ship, so it cruises left and stays past the prune line. The next tick's prune therefore drops it before that tick's hit loop (`Game.TickDropsDestroyed`).

## Model

| member | source | states |
|---|---|---|
| Geometry.Trunc | main.py:230-233 | `int()` of a float truncates toward zero: the result lies within 1 of the input, on the zero side |
| Entities.NewPlayer | main.py:47-51 | a new ship is 60 units square and lies inside the window |
| Entities.MoveUp | main.py:67-69 | only y changes, by exactly -1 or not at all; from inside the window it moves iff y > 0 and stays inside |
| Entities.MoveDown | main.py:71-73 | only y changes, by +1 or not at all; from inside it moves iff the top edge is below H, and stays inside |
| Entities.MoveLeft | main.py:75-77 | only x changes, by -1 or not at all; from inside it moves iff x > 0 and stays inside |
| Entities.MoveRight | main.py:79-81 | only x changes, by +1 or not at all; from inside it moves iff the right edge is left of W, and stays inside |
| Entities.Repeat | main.py:230-233 | n unit moves keep the size and change only the coordinate of their direction, a non-positive n does nothing, and a ship inside the window stays inside |
| Entities.RepeatIsShifted | main.py:230-233 | n repeated unit moves from inside the window equal one jump of n clamped to the window: `min(x+n, W-size)` right, `max(x-n, 0)` left, and likewise for y |
| Entities.Drag | main.py:230-233 | a drag keeps the ship's size and keeps it in the window, and an axis whose delta truncates to 0 does not move |
| Entities.DragIsClamped | main.py:230-233 | one drag moves the ship to `clamp(x + int(dx))`, `clamp(y + int(dy))` and keeps it in the window |
| Entities.CollisionFrom | main.py:84-91 | the sampling loop from sample i returns true iff some even sample k ≥ i below the size puts a sampled point in the rectangle |
| Entities.Collision | main.py:83-91 | the ship's hit test is true iff one of the points (x+i, y+i/2), (x+i, y+size-i/2) or (x, y+i), for even i < size, lies in the rectangle |
| Entities.SeparatedNoCollision | main.py:83-91 | a rectangle apart from the ship's closed bounding box never hits the ship |
| Entities.FiredPew | main.py:208-210 | a pew fired from a ship inside the window starts with its tail between x = 0 and the right edge, at a height inside the ship's box |
| Entities.PewUpdate | main.py:99-101 | a pew keeps its height and moves strictly right each tick |
| Entities.PewDestroy | main.py:106-108 | a destroyed pew keeps its height, has moved, and is past the prune line if its tail was at x ≥ 0 |
| Entities.HitBy | main.py:133-137 | a pew hits an enemy iff `ex ≤ px+30 ≤ ex+20` (inclusive) and `ey < py < ey+20` (strict) |
| Entities.EnemyDestroy | main.py:139-141 | a destroyed enemy keeps its speed, sits left of x = 0, and is past the prune line |
| Entities.Points | main.py:146-150 | the reward is `x*speed` while x > 0 and 0 otherwise |
| Entities.PointsShape | main.py:146-150 | for speeds in [1,4] the reward is between 0 and 4x; it never grows as the enemy moves left and never shrinks as the speed grows; a destroyed enemy is worth 0 |
| Entities.DestroyedEnemyIsNotHit | main.py:133-141 | no pew with tail at x ≥ 0 can hit an already destroyed enemy, so the later pews of the same pass are not destroyed by its remains |
| Lists.Filter | main.py:316-317 | the comprehension keeps exactly the elements satisfying the test, and never grows the list |
| Lists.FilterConcat | main.py:316-317 | filtering preserves order: it distributes over concatenation |
| Lists.FilterKeepsAll | main.py:316-317 | a list whose elements all pass comes back unchanged |
| Lists.FilterIdempotent | main.py:316-317 | filtering twice equals filtering once |
| Lists.FirstIndex | main.py:239 | the index found holds the value, and no earlier index does |
| Lists.RemoveFirst | main.py:239 | `list.remove` removes exactly one occurrence of the value (multiset difference), namely the first one, and keeps the other elements in their order |
| Game.ResetState | main.py:282-303 | best score becomes `max(best, score)`; score, pews, enemies and touches are cleared; runtime is 0, last shot is -10; not game over; counter 0; caption shows 0; tick on, toggle off; a valid state results |
| Game.Init | main.py:271-280 | start-up yields a valid state with best score 0 and no drag anchor |
| Game.ToggleScore | main.py:344-351 | the caption is "64M3 0V3R" iff counter ≡ 0 (mod 4), "CL1CK 2 R3TRY" iff ≡ 2, and the score iff the counter is odd; the counter goes up by 1 and nothing else changes |
| Game.ToggleCycle | main.py:344-351 | captions repeat with period 4, banners alternate with the score, and the game-over banner is followed two toggles later by the retry banner and back |
| Game.EndGame | main.py:353-356 | ending the game swaps the tick callback for the toggle callback; from a rested counter the first caption is the game-over banner; scores and entities are untouched |
| Game.TouchDown | main.py:189-216 | game over: a touch in the retry region (x < 16·13, y > H-24) resets, others do nothing; playing: the touch is registered, the first held touch sets the drag anchor to its position and no other touch changes it, and a pew is appended iff this is the second touch, `last_pew + 0.3 ≤ runtime` and fewer than 3 pews fly; then the pew starts at the ship's right-centre edge and `last_pew := runtime` |
| Game.FireSpacing | main.py:204-212 | after a touch at most 3 pews fly, and a shot comes at least 0.3 after the previous shot's time |
| Game.TouchMove | main.py:218-235 | only the anchor and the ship can change; game over, no held touch, a non-primary touch or no anchor leaves the whole state unchanged; the primary touch moves the anchor to the touch; the ship stays in the window |
| Game.TouchMoveDrags | main.py:227-234 | a primary-touch move puts the ship at the truncated, clamped delta from the anchor and moves the anchor to the touch |
| Game.TouchUp | main.py:237-239 | while playing, the first occurrence of a held touch is removed and the other touches keep their order, so lifting a non-primary touch keeps the primary one; game over or an untracked touch leaves the state unchanged |
| Game.Center | main.py:41-43 | the ship's centre lies in its box, and inside the window when the ship does |
| Game.EnemyCenter | main.py:41-43 | an enemy's centre lies in its box, midway across it (to within Python 2's integer division) |
| Game.PrunePews | main.py:316 | keeps exactly the pews with x < W |
| Game.PruneEnemies | main.py:317 | keeps exactly the enemies with x > -100 |
| Game.PruneIdempotent | main.py:316-317 | a second prune changes nothing, and destroyed pews (tail at x ≥ 0) and destroyed enemies are gone after the next prune |
| Game.PruneKeepsOrder | main.py:316-317 | the prunes keep survivors in their original order |
| Game.AdvancePews | main.py:319-320 | every pew keeps its place in the list and its height, and moves exactly 10 to the right |
| Game.HitPews | main.py:329-335 | for one enemy: some pew hits it iff it is destroyed; then the score grows by exactly its reward once; every pew is either unchanged or destroyed, and at least one is destroyed; with no hit nothing changes |
| Game.HitPewsAt | main.py:329-333 | pew j leaves the loop destroyed iff it hits the enemy as pew j finds it: intact before the first hit, destroyed after it |
| Game.HitPewsExact | main.py:329-333 | the pews destroyed are exactly those that hit the enemy or its remains; the first hitting pew is destroyed and the pews before it are untouched |
| Game.SweepEnemies | main.py:322-335 | the loop keeps one entry per enemy and per pew, and without a kill the score is unchanged |
| Game.FirstCrash | main.py:322-327 | the index of the first enemy whose box touches the ship, or the number of enemies when none does |
| Game.KillValueNone | main.py:329-335 | when no enemy changed, the destroyed enemies' rewards sum to zero |
| Game.SweepStopsAtCrash | main.py:322-327 | the enemy at the first crash index and every enemy after it leave the loop unchanged |
| Game.SweepKillsNeedPew | main.py:329-335 | an enemy the loop destroys had some pew flying strictly within its height |
| Game.SweepScoresKills | main.py:329-335 | the score grows by exactly the rewards of the enemies the loop destroys, each valued where it stood |
| Game.SweepExact | main.py:322-335 | the loop stops at the first crash and leaves the rest unchanged; each kill had a pew within its height, and an enemy before the crash hit by a pew no earlier enemy could touch is killed; the score grows by exactly the kills' rewards; pews keep their heights and only move right, an untouchable pew is unchanged and a clear shot is destroyed |
| Game.VolleySpares | main.py:329-333 | a pew that neither the enemy nor its remains can touch leaves the inner loop unchanged |
| Game.SweepMovesPews | main.py:329-335 | during the loop every pew keeps its height and only moves right |
| Game.SweepSparesPew | main.py:329-335 | a pew no enemy before the crash can touch, intact or destroyed, leaves the loop unchanged |
| Game.SweepKills | main.py:329-335 | an enemy before the crash that a pew hits is destroyed, when no earlier enemy could have touched that pew |
| Game.ClearShotFirst | main.py:329-334 | the first pew to hit the first enemy is destroyed by that enemy's inner loop |
| Game.ClearShotStep | main.py:329-334 | a clear shot on a later enemy passes the first enemy's inner loop unchanged and stays clear |
| Game.SweepDestroysShot | main.py:329-335 | the first pew to hit an enemy before the crash, with it and the pews before it out of reach of earlier enemies, is destroyed: it ends at least a window width further right |
| Game.SweepCollided | main.py:322-327 | the enemy loop stops for game over iff some enemy's box touches the ship's sampled outline |
| Game.SweepDestroys | main.py:329-335 | every enemy leaves the loop either unchanged or destroyed (`Game.SweepKills` and `Game.SweepKillsNeedPew` give sufficient and necessary conditions for a kill, `Game.SweepScoresKills` what the kills pay) |
| Game.SweepScore | main.py:329-335 | with speeds in [1,4] the score never decreases during the loop and speeds stay in range |
| Game.SteerAll | main.py:341-342 | every enemy moves to the position steering gives it, keeping its speed and its place in the list |
| Game.DestroyedStaysGone | main.py:117-141 | under steering that obeys `Enemy.update` (cruise left by the speed beyond distance 200), an enemy parked by `destroy` stays past the prune line after being steered |
| Game.TickDropsDestroyed | main.py:316-342 | after a running tick, every enemy its hit loop destroyed is still past the prune line, so the next tick's prune drops it before the next hit loop |
| Game.Tick | main.py:306-342 | a tick counts itself, adds dt to runtime, never adds pews, and leaves every other field alone: the best score, the ship, the touch list, the drag anchor and the last shot time; with valid speeds the score never decreases |
| Game.TickKeepsValid | main.py:306-342 | a tick of a running game, with a spawn `Enemy()` can build, keeps the state invariant |
| Game.TickEndsGame | main.py:322-327 | a tick ends the game iff a pruned enemy touches the ship; the game-over screen then shows the game-over banner, the counter is 1, and tick is off while toggle is on |
| Play.Step | main.py:189-356 | only a frame of a running game ends the run or raises the score; only a tap on the retry caption leaves the game-over screen or changes the best score |
| Play.StepKeepsValid | main.py:189-356 | every callback keeps the invariant and never lowers the best score |
| Play.RunKeepsValid | main.py:189-356 | along any run of admissible callbacks the invariant holds and the best score never decreases |
| Play.Reachable | main.py:189-356 | from start-up the ship stays in the window, at most 3 pews fly, exactly one callback is scheduled and the best score is non-negative |
| AsWritten.TouchMoveAsWritten | main.py:218-235 | the handler raises `AttributeError` iff playing with the anchor never assigned; otherwise it agrees with `Game.TouchMove` |
| AsWritten.TouchUpAsWritten | main.py:237-239 | the handler raises `ValueError` iff playing, some touch is held, and the lifted one is not; otherwise it agrees with `Game.TouchUp` |
| AsWritten.CrashEndsGame | main.py:322-327 | an enemy spawned and steered onto a resting ship ends the game on the next tick |
| AsWritten.RetryThenDrag | main.py:189-193 | on the game-over screen with no anchor, the retry tap resets and a drag then raises, while the corrected handler ignores it |
| AsWritten.AttributeErrorAfterRetry | main.py:218-222 | from start-up, a crash, a retry tap and a drag reach the `AttributeError` |
| AsWritten.RetryThenTouch | main.py:189-198 | the retry tap resets without registering its finger, so after a new touch lands, lifting the retry finger raises, while the corrected handler ignores it |
| AsWritten.ValueErrorAfterRetry | main.py:237-239 | from start-up, a crash, a held retry tap, a second finger and lifting the retry finger reach the `ValueError` |

## Left out

- Drawing: the glyph table, `draw_score`, `Drawable.remove` and the `Bezier`/`Rectangle` calls (main.py:30-43, 53-65, 154-184, 241-269) are rendering. Only the top-left caption survives, as a `Caption` value.
- Sounds (main.py:273-276 and their `play` calls) are fire-and-forget output.
- The `print` logging of list lengths every 120 ticks (main.py:311-313). `ticks` is still counted.
- `Clock` is modelled by the two scheduling flags. `Window` is modelled by the constants `W = 800` and `H = 600`, Kivy's default window size.
- Enemy steering (main.py:117-131) and the geometry helpers `diff`, `distance` and `unit_vector_scaled` (main.py:19-28) use float `sqrt` and `sin`. The enemy's new position is an input of `Game.Tick` (a `Steering` function of the enemy and the ship's centre). `Play.Admissible` constrains it by `Game.SteerOk` to the parts the code fixes exactly: beyond distance 200 an enemy moves left by its speed; nearer, it moves at most 5 along each axis. The exact homing vector, the scale argument `unit_vector_scaled` ignores, and the division by zero at distance 0 are not modelled.
- AsWritten.Crash: the crash scenario's steering drops the new enemy straight onto the ship, which `Game.SteerOk` does not allow. It stands for an enemy that cruises in over many ticks while nobody touches the screen; that longer run is not replayed. `AsWritten.RetryThenTouch` holds for every game-over state; `AsWritten.RetryThenDrag` for every game-over state with no touch on record (`lastTouch` is `None`).
- Enemy positions are integers. In the source, cruise mode adds `sin(runtime)` to y, which makes y a float. The hit tests (`Entities.HitBy`, `Game.HitPews` and the `Sweep*` lemmas) are stated for integer enemy heights only: pew heights are integers, so an enemy at y = 9 is hit by pews at heights 10..28 (19 of them), while one at y = 9.5 would be hit by pews at heights 10..29 (20 of them).
- The spawn roll (main.py:337-339) uses `atan` and `random`. It is an `Option<Enemy>` input of the tick. `Play.Admissible` only asks that a spawned enemy is one `Enemy()` can build: x = W, 0 ≤ y ≤ H-20, speed in [1,4] (main.py:112-114). No bound on `enemy_chance_inv` is claimed: it turns negative at large runtimes, and `randint` would then raise.
- pygame's `Rect.collidepoint` is not part of this model. `Geometry.CollidePoint` assumes it is half-open containment (left and top inclusive).
- Floating point: runtime, `last_pew`, the 0.3 cooldown and touch coordinates are exact reals. Float rounding is not modelled.
- `Player.lifes` (display only), the `dt` attribute (only passed on to drawing), and the `last_touch` attribute that `reset_state` sets but nothing reads.
- Game.Tick: does not state the positions of pews and enemies after the tick in its own contract. The prune lemmas, `Game.AdvancePews`, `Game.SweepExact` and `Game.SteerAll` cover the stages, with the gaps of the next two lines.
- Game.SweepDestroys: which enemies die is pinned down only partly. `Game.SweepKills` covers an enemy hit by a pew that no earlier enemy could touch; `Game.SweepKillsNeedPew` gives the necessary height condition. An enemy whose only hitting pew was already moved by an earlier enemy is covered by neither.
- Game.SweepExact: for the pews, it states heights kept, motion to the right, untouchable pews unchanged and clear shots destroyed. It does not give the exact final position of a pew that several enemies touch in turn.
- Game.TouchMove and Game.TouchUp are the corrected handlers (see Findings). The source's exceptions are modelled only in `AsWritten`.

## Findings

The code itself shows that a missing anchor or an untracked touch was meant to be skipped. `on_touch_move` tests `last_touch_x == None` and returns (main.py:221). `reset_state` sets `self.last_touch = None` (main.py:291), evidently meaning to initialise that anchor. `on_touch_up` guards `remove` with `if self.touch_uids != []` (main.py:239). Yet in the two cases below the code raises. The model follows the code in `AsWritten`. The rest of the model (`Play.Step`) uses the corrected handlers.

| source | as written | input that shows it | evidently intended | confidence | as-written member | corrected member |
|---|---|---|---|---|---|---|
| main.py:221 | `on_touch_move` reads `last_touch_x`. Only `on_touch_down` assigns it, and `reset_state` sets `last_touch` instead (main.py:291). So it raises `AttributeError` if no touch has gone down while playing | start the game and touch nothing until an enemy ends the run; tap retry at (10, 590); drag that finger | the attribute starts as `None`, so the `== None` test returns | not executed | AsWritten.AttributeErrorAfterRetry | Game.TouchMove |
| main.py:239 | `list.remove` raises `ValueError` when the lifted touch is not in a non-empty list | after an enemy ends the run, tap retry with finger 2; while holding it, put finger 3 down; lift finger 2 | an untracked touch is ignored | not executed | AsWritten.ValueErrorAfterRetry | Game.TouchUp |

=== FILE: as_written.dfy ===
/**
 * The two touch handlers exactly as main.py writes them, including the
 * exceptions they raise, next to the corrected handlers of module `Game`
 * that the rest of the model uses.
 */
module AsWritten {
  import opened Geometry
  import opened Entities
  import opened Game

  datatype PyError = AttributeError | ValueError

  /** A handler either returns, leaving a new state, or raises. */
  datatype Outcome = Returned(state: GameState) | Raised(error: PyError)

  /**
   * `on_touch_move` as written: while playing it reads `last_touch_x`, which
   * raises `AttributeError` until a first touch-down has assigned it
   * (`reset_state` assigns `last_touch` instead). Otherwise it behaves as
   * the corrected handler.
   */
  function TouchMoveAsWritten(g: GameState, uid: int, x: real, y: real): (r: Outcome)
    ensures r.Raised? <==> !g.gameOver && g.lastTouch.None?
    ensures r.Raised? ==> r.error == AttributeError
    ensures r.Returned? ==> r.state == TouchMove(g, uid, x, y)
  {
    if g.gameOver then Returned(g)
    else if g.lastTouch.None? then Raised(AttributeError)
    else if g.touchUids == [] then Returned(g)
    else if g.touchUids[0] != uid then Returned(g)
    else
      var (lx, ly) := g.lastTouch.value;
      Returned(g.(player := Drag(g.player, x - lx, y - ly), lastTouch := Some((x, y))))
  }

  /**
   * `on_touch_up` as written: `list.remove` raises `ValueError` for a touch
   * that is not held while some other touch is.
   */
  function TouchUpAsWritten(g: GameState, uid: int): (r: Outcome)
    ensures r.Raised? <==> !g.gameOver && g.touchUids != [] && uid !in g.touchUids
    ensures r.Raised? ==> r.error == ValueError
    ensures r.Returned? ==> r.state == TouchUp(g, uid)
  {
    if g.gameOver then Returned(g)
    else if g.touchUids == [] then Returned(g)
    else if uid !in g.touchUids then Raised(ValueError)
    else Returned(g.(touchUids := Lists.RemoveFirst(g.touchUids, uid)))
  }

  /** A steering that drops every enemy onto the ship's starting corner. */
  function OntoShip(e: Enemy, target: (int, int)): (int, int)
  {
    (NewPlayer().x, NewPlayer().y)
  }

  /** The tick that spawns one enemy and steers it onto the resting ship. */
  function SpawnOntoShip(g: GameState): GameState
  {
    Tick(g, 1.0 / 60.0, Some(Enemy(W, 300, 1)), OntoShip)
  }

  /** The two ticks of the crash: an enemy spawns onto the resting ship, and the next tick ends the game. */
  function Crash(g: GameState): GameState
  {
    Tick(SpawnOntoShip(g), 1.0 / 60.0, None, OntoShip)
  }

  /** From a fresh run with nothing touched, the crash ticks end the game and leave the touch state alone. */
  lemma {:induction false} CrashEndsGame(g: GameState)
    requires Valid(g) && !g.gameOver && g.player == NewPlayer() && g.pews == [] && g.enemies == []
    ensures Crash(g).gameOver && Crash(g).touchUids == g.touchUids && Crash(g).lastTouch == g.lastTouch
  {
    var g1 := SpawnOntoShip(g);
    var s := SweepEnemies(g.player, PruneEnemies(g.enemies), AdvancePews(PrunePews(g.pews)), g.points);
    assert |s.enemies| == 0 && !s.collided;
    var spawned := s.enemies + Spawned(Some(Enemy(W, 300, 1)));
    assert spawned == [Enemy(W, 300, 1)];
    var e := Relocate(Enemy(W, 300, 1), OntoShip(Enemy(W, 300, 1), Center(g.player)));
    assert e == Enemy(100, 270, 1);
    assert g1.enemies == SteerAll(spawned, OntoShip, Center(g.player));
    assert g1.enemies == [e];
    assert g1.player == g.player && g1.lastTouch == g.lastTouch && g1.touchUids == g.touchUids;
    assert SampleHits(g.player, EnemyRect(e), 0);
    assert IsSample(g.player, 0);
    assert Collision(g.player, EnemyRect(e));
    assert PruneEnemies(g1.enemies) == [e] by {
      assert EnemyAlive(e);
    }
    SweepCollided(g.player, [e], AdvancePews(PrunePews(g1.pews)), g1.points);
  }

  /** On the game-over screen with no drag anchor: the retry tap resets, and a drag then raises. */
  lemma RetryThenDrag(over: GameState)
    requires over.gameOver && over.lastTouch == None
    ensures var retried := TouchDown(over, 7, 10.0, 590.0);
      && !retried.gameOver
      && TouchMoveAsWritten(retried, 7, 40.0, 560.0) == Raised(AttributeError)
      && TouchMove(retried, 7, 40.0, 560.0) == retried
  {
    assert InRetryRegion(10.0, 590.0);
  }

  /**
   * The `AttributeError`: from start-up, nobody touches the screen until an
   * enemy ends the game; the retry tap resets, and dragging that same finger
   * raises, whereas the corrected handler ignores the move.
   */
  lemma AttributeErrorAfterRetry()
    ensures var retried := TouchDown(Crash(Init()), 7, 10.0, 590.0);
      && Crash(Init()).gameOver && !retried.gameOver
      && TouchMoveAsWritten(retried, 7, 40.0, 560.0) == Raised(AttributeError)
      && TouchMove(retried, 7, 40.0, 560.0) == retried
  {
    CrashEndsGame(Init());
    RetryThenDrag(Crash(Init()));
  }

  /**
   * On the game-over screen: the retry tap resets and is not registered, a
   * second finger goes down, and lifting the retry finger raises.
   */
  lemma RetryThenTouch(over: GameState)
    requires over.gameOver
    ensures var again := TouchDown(TouchDown(over, 2, 10.0, 590.0), 3, 300.0, 300.0);
      && again.touchUids == [3]
      && TouchUpAsWritten(again, 2) == Raised(ValueError)
      && TouchUp(again, 2) == again
  {
    assert InRetryRegion(10.0, 590.0);
    var retried := TouchDown(over, 2, 10.0, 590.0);
    assert retried == ResetState(over);
  }

  /**
   * The `ValueError`: after a crash, the player taps retry and, still
   * holding that finger, puts a second one down; lifting the retry finger
   * raises, whereas the corrected handler ignores it.
   */
  lemma ValueErrorAfterRetry()
    ensures var again := TouchDown(TouchDown(Crash(Init()), 2, 10.0, 590.0), 3, 300.0, 300.0);
      && Crash(Init()).gameOver && again.touchUids == [3]
      && TouchUpAsWritten(again, 2) == Raised(ValueError)
      && TouchUp(again, 2) == again
  {
    CrashEndsGame(Init());
    RetryThenTouch(Crash(Init()));
  }
}

=== FILE: entities.dfy ===
/**
 * The three kinds of entity of the game (player ship, projectile "pew",
 * enemy) with their movement, destroy and hit-test rules (main.py:46-150).
 */
module Entities {
  import opened Geometry

  /* ---------------------------------------------------------------- Player */

  /** Side of the (square) player ship, as created by the game reset. */
  const PLAYER_SIZE: nat := 60

  /** The player ship: bottom-left corner and the side of its square bounding box. */
  datatype Player = Player(x: int, y: int, size: nat)

  /** A fresh ship, horizontally at 100 and vertically centred (Python 2 integer division). */
  function NewPlayer(): (p: Player)
    ensures p.size == PLAYER_SIZE && InBounds(p)
  {
    Player(100, H / 2 - PLAYER_SIZE / 2, PLAYER_SIZE)
  }

  /** The ship's bounding box lies inside the window. */
  predicate InBounds(p: Player)
  {
    0 <= p.x <= W - p.size && 0 <= p.y <= H - p.size
  }

  /** Steps by one unit towards y = 0 unless y is already 0 (main.py tests `pos[1]` for truthiness). */
  function MoveUp(p: Player): (r: Player)
    ensures r.x == p.x && r.size == p.size
    ensures r.y == p.y || r.y == p.y - 1
    ensures InBounds(p) ==> InBounds(r) && (r.y == p.y - 1 <==> p.y > 0)
  {
    if p.y != 0 then p.(y := p.y - 1) else p
  }

  /** Steps by one unit towards y = H while the top edge stays inside the window. */
  function MoveDown(p: Player): (r: Player)
    ensures r.x == p.x && r.size == p.size
    ensures r.y == p.y || r.y == p.y + 1
    ensures InBounds(p) ==> InBounds(r) && (r.y == p.y + 1 <==> p.y < H - p.size)
  {
    if p.y + p.size < H then p.(y := p.y + 1) else p
  }

  /** Steps by one unit towards x = 0 unless x is already 0. */
  function MoveLeft(p: Player): (r: Player)
    ensures r.y == p.y && r.size == p.size
    ensures r.x == p.x || r.x == p.x - 1
    ensures InBounds(p) ==> InBounds(r) && (r.x == p.x - 1 <==> p.x > 0)
  {
    if p.x != 0 then p.(x := p.x - 1) else p
  }

  /** Steps by one unit towards x = W while the right edge stays inside the window. */
  function MoveRight(p: Player): (r: Player)
    ensures r.y == p.y && r.size == p.size
    ensures r.x == p.x || r.x == p.x + 1
    ensures InBounds(p) ==> InBounds(r) && (r.x == p.x + 1 <==> p.x < W - p.size)
  {
    if p.x + p.size < W then p.(x := p.x + 1) else p
  }

  datatype Dir = Up | Down | Left | Right

  function Move(p: Player, d: Dir): Player
  {
    match d
    case Up => MoveUp(p)
    case Down => MoveDown(p)
    case Left => MoveLeft(p)
    case Right => MoveRight(p)
  }

  /** `for _ in range(n): move()`; a non-positive `n` gives an empty range. */
  function Repeat(p: Player, d: Dir, n: int): (r: Player)
    ensures r.size == p.size
    ensures d == Left || d == Right ==> r.y == p.y
    ensures d == Up || d == Down ==> r.x == p.x
    ensures n <= 0 ==> r == p
    ensures InBounds(p) ==> InBounds(r)
    decreases n
  {
    if n <= 0 then p else Repeat(Move(p, d), d, n - 1)
  }

  /** Reference definition: `n` unit moves in direction `d` is one clamped jump of `n`. */
  function Shifted(p: Player, d: Dir, n: nat): Player
  {
    match d
    case Up => p.(y := if p.y - n < 0 then 0 else p.y - n)
    case Down => p.(y := if p.y + n > H - p.size then H - p.size else p.y + n)
    case Left => p.(x := if p.x - n < 0 then 0 else p.x - n)
    case Right => p.(x := if p.x + n > W - p.size then W - p.size else p.x + n)
  }

  /** From a position inside the window, `n` repeated unit moves equal one jump clamped to the window. */
  lemma {:induction false} RepeatIsShifted(p: Player, d: Dir, n: nat)
    requires InBounds(p)
    ensures Repeat(p, d, n) == Shifted(p, d, n)
    ensures InBounds(Repeat(p, d, n))
    decreases n
  {
    if n > 0 {
      RepeatIsShifted(Move(p, d), d, n - 1);
    }
  }

  /**
   * The drag of one touch-move event: the four loops of the handler in the
   * order main.py runs them, each repeating its unit move `int(delta)` times.
   */
  function Drag(p: Player, dx: real, dy: real): (r: Player)
    ensures r.size == p.size
    ensures InBounds(p) ==> InBounds(r)
    ensures Trunc(dx) == 0 ==> r.x == p.x
    ensures Trunc(dy) == 0 ==> r.y == p.y
  {
    var p1 := Repeat(p, Right, Trunc(dx));
    var p2 := Repeat(p1, Down, Trunc(dy));
    var p3 := Repeat(p2, Left, Trunc(-dx));
    Repeat(p3, Up, Trunc(-dy))
  }

  /** A drag moves the ship by the truncated deltas, clamped so the ship stays inside the window. */
  lemma DragIsClamped(p: Player, dx: real, dy: real)
    requires InBounds(p)
    ensures Drag(p, dx, dy) == Player(Clamp(p.x + Trunc(dx), 0, W - p.size),
                                      Clamp(p.y + Trunc(dy), 0, H - p.size), p.size)
    ensures InBounds(Drag(p, dx, dy))
  {
    TruncNegate(dx);
    TruncNegate(dy);
    var p1 := Repeat(p, Right, Trunc(dx));
    RepeatIsShifted(p, Right, if Trunc(dx) < 0 then 0 else Trunc(dx));
    var p2 := Repeat(p1, Down, Trunc(dy));
    RepeatIsShifted(p1, Down, if Trunc(dy) < 0 then 0 else Trunc(dy));
    var p3 := Repeat(p2, Left, Trunc(-dx));
    RepeatIsShifted(p2, Left, if Trunc(-dx) < 0 then 0 else Trunc(-dx));
    RepeatIsShifted(p3, Up, if Trunc(-dy) < 0 then 0 else Trunc(-dy));
  }

  /** The i-th sample of the ship's outline lies in `r` (top edge, bottom edge, left edge). */
  predicate SampleHits(p: Player, r: Rect, i: int)
  {
    || CollidePoint(r, p.x + i, p.y + i / 2)
    || CollidePoint(r, p.x + i, p.y + p.size - i / 2)
    || CollidePoint(r, p.x, p.y + i)
  }

  /** `i` is one of `range(0, size, 2)`. */
  predicate IsSample(p: Player, i: int)
  {
    0 <= i < p.size && i % 2 == 0
  }

  /** The sampling loop of the player's hit test, from sample `i` on. */
  function CollisionFrom(p: Player, r: Rect, i: nat): (hit: bool)
    requires i % 2 == 0
    ensures hit <==> exists k :: i <= k && IsSample(p, k) && SampleHits(p, r, k)
    decreases p.size - i
  {
    if i >= p.size then false
    else if SampleHits(p, r, i) then true
    else CollisionFrom(p, r, i + 2)
  }

  /** The player's hit test: true iff one of the sampled outline points lies in `r`. */
  function Collision(p: Player, r: Rect): (hit: bool)
    ensures hit <==> exists k :: IsSample(p, k) && SampleHits(p, r, k)
  {
    CollisionFrom(p, r, 0)
  }

  /** `r` shares no point with the ship's closed bounding box. */
  predicate Separated(p: Player, r: Rect)
  {
    || r.left + r.w <= p.x || p.x + p.size < r.left
    || r.top + r.h <= p.y || p.y + p.size < r.top
  }

  /** Every sample lies in the ship's closed box, so a rectangle apart from that box is never hit. */
  lemma SeparatedNoCollision(p: Player, r: Rect)
    requires Separated(p, r)
    ensures !Collision(p, r)
  {
    forall k | IsSample(p, k)
      ensures !SampleHits(p, r, k)
    {
      assert 0 <= k / 2 <= k < p.size;
    }
  }

  /* ------------------------------------------------------------------- Pew */

  /** A projectile's tail; its leading edge is `PEW_LENGTH` further right. */
  datatype Pew = Pew(x: int, y: int)

  const PEW_LENGTH: int := 30
  const PEW_STEP: int := 10

  /**
   * A new pew starts at the ship's right-centre edge: from a ship inside the
   * window its tail is at or right of x = 0 and at most at the right edge, and
   * its height is inside the ship's box.
   */
  function FiredPew(p: Player): (r: Pew)
    ensures InBounds(p) ==> 0 <= r.x <= W && p.y <= r.y <= p.y + p.size
  {
    Pew(p.x + p.size, p.y + p.size / 2)
  }

  /** One tick of flight: a fixed step to the right, independent of the tick length. */
  function PewUpdate(p: Pew): (r: Pew)
    ensures r.y == p.y && r.x > p.x
  {
    p.(x := p.x + PEW_STEP)
  }

  /** Teleports the pew one window width further right, so the next prune drops it. */
  function PewDestroy(p: Pew): (r: Pew)
    ensures r.y == p.y && r != p
    ensures p.x >= 0 ==> !PewAlive(r)
  {
    p.(x := p.x + W)
  }

  /** The prune keeps a pew while its tail is left of the right window edge. */
  predicate PewAlive(p: Pew)
  {
    p.x < W
  }

  /* ----------------------------------------------------------------- Enemy */

  const ENEMY_SIZE: int := 20

  /** An enemy: bottom-left corner and its horizontal speed (drawn from [1, 4] at spawn). */
  datatype Enemy = Enemy(x: int, y: int, speed: int)

  /** The enemy as spawned: at the right window edge, fully inside vertically, speed in [1, 4]. */
  predicate ValidSpawn(e: Enemy)
  {
    e.x == W && 0 <= e.y <= H - ENEMY_SIZE && 1 <= e.speed <= 4
  }

  function EnemyRect(e: Enemy): Rect
  {
    Rect(e.x, e.y, ENEMY_SIZE, ENEMY_SIZE)
  }

  /**
   * The enemy's hit test against a pew: the pew's leading edge has reached
   * but not passed the enemy box horizontally (both ends inclusive), and the
   * pew's height is strictly inside the box.
   */
  function HitBy(e: Enemy, p: Pew): (hit: bool)
    ensures hit <==> && e.x <= p.x + PEW_LENGTH <= e.x + ENEMY_SIZE
                     && e.y < p.y < e.y + ENEMY_SIZE
  {
    if p.x + PEW_LENGTH < e.x then false
    else if p.x + PEW_LENGTH > e.x + ENEMY_SIZE then false
    else e.y < p.y < e.y + ENEMY_SIZE
  }

  /** Moves the enemy one window width off the left edge, keeping its speed. */
  function EnemyDestroy(e: Enemy): (r: Enemy)
    ensures r.speed == e.speed && r.x < 0
    ensures !EnemyAlive(r)
  {
    Enemy(-W, 0, e.speed)
  }

  /** The prune keeps an enemy while it is right of -100. */
  predicate EnemyAlive(e: Enemy)
  {
    e.x > -100
  }

  /** The reward for killing `e` where it stands. */
  function Points(e: Enemy): (r: int)
    ensures e.x <= 0 ==> r == 0
    ensures e.x > 0 ==> r == e.x * e.speed
  {
    if e.x > 0 then e.x * e.speed else 0
  }

  /**
   * Rewards are never negative for a spawned speed, grow with the speed, and
   * shrink as the enemy advances leftwards; a destroyed enemy is worth nothing.
   */
  lemma PointsShape(e: Enemy, x': int, s': int)
    requires 1 <= e.speed <= 4
    ensures 0 <= Points(e) <= 4 * (if e.x > 0 then e.x else 0)
    ensures x' <= e.x ==> Points(e.(x := x')) <= Points(e)
    ensures e.speed <= s' ==> Points(e) <= Points(e.(speed := s'))
    ensures Points(EnemyDestroy(e)) == 0
  {
    if x' <= e.x && x' > 0 {
      assert x' * e.speed <= e.x * e.speed;
    }
    if e.speed <= s' && e.x > 0 {
      assert e.x * e.speed <= e.x * s';
    }
  }

  /** A destroyed enemy cannot be hit by a pew whose tail is at or right of x = 0. */
  lemma DestroyedEnemyIsNotHit(e: Enemy, p: Pew)
    requires p.x >= 0
    ensures !HitBy(EnemyDestroy(e), p)
  {
  }
}

=== FILE: game.dfy ===
/**
 * The game state and its transitions (main.py:152-356): the reset, the
 * per-tick prune / hit / game-over sweep, the touch handlers, and the
 * caption toggle of the game-over screen.
 *
 * Kivy's `Clock` is replaced by two flags saying which periodic callback is
 * scheduled; sounds and drawing are left out, except that the caption shown
 * in the top-left score area is kept as part of the state.
 */
module Game {
  import opened Geometry
  import opened Entities
  import opened Lists

  datatype Option<+T> = None | Some(value: T)

  /** What the top-left score area shows. */
  datatype Caption = Score(shown: int) | GameOverBanner | RetryBanner

  /** The retry caption; its width at 16 units per glyph bounds the retry region. */
  const RETRY_TEXT: string := "CL1CK 2 R3TRY"
  const GLYPH_WIDTH: int := 16
  /** Height of the caption band at the top of the window. */
  const CAPTION_HEIGHT: int := 24

  const MAX_PEWS: nat := 3
  const COOLDOWN: real := 0.3
  /** `last_pew` after a reset, far enough in the past that the first shot is never cooling down. */
  const NEVER_FIRED: real := -10.0

  datatype GameState = GameState(
    player: Player,
    pews: seq<Pew>,
    enemies: seq<Enemy>,
    points: int,
    topPoints: int,
    runtime: real,
    ticks: nat,
    lastPew: real,
    gameOver: bool,
    toggleCounter: nat,
    touchUids: seq<int>,
    /** `(last_touch_x, last_touch_y)`; `None` while the attribute has never been assigned. */
    lastTouch: Option<(real, real)>,
    caption: Caption,
    /** The 60 Hz `update` callback is scheduled. */
    tickScheduled: bool,
    /** The 1 Hz `toogle_score` callback is scheduled. */
    toggleScheduled: bool)

  /** Every enemy's speed is one `randint(1, 4)` can draw. */
  predicate SpeedsOk(es: seq<Enemy>)
  {
    forall i :: 0 <= i < |es| ==> 1 <= es[i].speed <= 4
  }

  /**
   * The invariant every reachable state keeps: one ship inside the window, at
   * most three pews, non-negative scores, spawnable speeds, exactly one of
   * the two callbacks scheduled (the one matching the game-over flag), and
   * while playing the caption shows the current score and the toggle counter
   * is at rest.
   */
  predicate Valid(g: GameState)
  {
    && InBounds(g.player) && g.player.size == PLAYER_SIZE
    && |g.pews| <= MAX_PEWS
    && 0 <= g.points && 0 <= g.topPoints
    && SpeedsOk(g.enemies)
    && g.tickScheduled == !g.gameOver
    && g.toggleScheduled == g.gameOver
    && (!g.gameOver ==> g.toggleCounter == 0 && g.caption == Score(g.points))
  }

  /* ------------------------------------------------------ reset / start-up */

  /**
   * `reset_state`: folds the score into the best score, then clears the run.
   * The drag anchor is not touched: main.py assigns a differently named
   * attribute there.
   */
  function ResetState(g: GameState): (r: GameState)
    ensures r.topPoints >= g.topPoints && r.topPoints >= g.points
    ensures r.topPoints == g.topPoints || r.topPoints == g.points
    ensures r.points == 0 && r.pews == [] && r.enemies == [] && r.touchUids == []
    ensures r.runtime == 0.0 && r.ticks == 0 && r.lastPew == NEVER_FIRED
    ensures !r.gameOver && r.toggleCounter == 0 && r.caption == Score(0)
    ensures r.tickScheduled && !r.toggleScheduled
    ensures r.lastTouch == g.lastTouch
    ensures r.player == NewPlayer()
    ensures g.topPoints >= 0 && g.points >= 0 ==> Valid(r)
  {
    GameState(
      player := NewPlayer(),
      pews := [],
      enemies := [],
      points := 0,
      topPoints := if g.points > g.topPoints then g.points else g.topPoints,
      runtime := 0.0,
      ticks := 0,
      lastPew := NEVER_FIRED,
      gameOver := false,
      toggleCounter := 0,
      touchUids := [],
      lastTouch := g.lastTouch,
      caption := Score(0),
      tickScheduled := true,
      toggleScheduled := false)
  }

  /** The game's constructor: both scores start at 0, then a reset. */
  function Init(): (r: GameState)
    ensures Valid(r) && r.topPoints == 0 && r.lastTouch == None
  {
    ResetState(GameState(NewPlayer(), [], [], 0, 0, 0.0, 0, NEVER_FIRED, false, 0, [], None,
                         Score(0), false, false))
  }

  /* ----------------------------------------------------- caption toggling */

  /** The four-phase caption cycle of the game-over screen. */
  function CaptionAt(counter: nat, points: int): Caption
  {
    if counter % 4 == 0 then GameOverBanner
    else if counter % 4 == 2 then RetryBanner
    else Score(points)
  }

  /** `toogle_score`: shows the caption of the current phase and advances the phase. */
  function ToggleScore(g: GameState): (r: GameState)
    ensures r.toggleCounter == g.toggleCounter + 1
    ensures r == g.(caption := r.caption, toggleCounter := r.toggleCounter)
    ensures r.caption == GameOverBanner <==> g.toggleCounter % 4 == 0
    ensures r.caption == RetryBanner <==> g.toggleCounter % 4 == 2
    ensures r.caption == Score(g.points) <==> g.toggleCounter % 2 == 1
  {
    g.(caption := CaptionAt(g.toggleCounter, g.points), toggleCounter := g.toggleCounter + 1)
  }

  /** Toggling is periodic: four toggles later the same caption comes back, and the banners alternate with the score. */
  lemma ToggleCycle(g: GameState)
    ensures ToggleScore(ToggleScore(ToggleScore(ToggleScore(ToggleScore(g))))).caption
            == ToggleScore(g).caption
    ensures ToggleScore(g).caption != Score(g.points) ==> ToggleScore(ToggleScore(g)).caption == Score(g.points)
    ensures ToggleScore(g).caption == GameOverBanner ==> ToggleScore(ToggleScore(ToggleScore(g))).caption == RetryBanner
    ensures ToggleScore(g).caption == RetryBanner ==> ToggleScore(ToggleScore(ToggleScore(g))).caption == GameOverBanner
  {
  }

  /**
   * `end_game`: stops the tick callback, shows the first caption of the
   * cycle at once and schedules the toggle callback.
   */
  function EndGame(g: GameState): (r: GameState)
    ensures !r.tickScheduled && r.toggleScheduled
    ensures r.toggleCounter == g.toggleCounter + 1
    ensures g.toggleCounter == 0 ==> r.caption == GameOverBanner
    ensures r.points == g.points && r.topPoints == g.topPoints && r.pews == g.pews && r.enemies == g.enemies
  {
    ToggleScore(g.(tickScheduled := false)).(toggleScheduled := true)
  }

  /* ----------------------------------------------------------- touch input */

  /** The retry region: left of the retry caption's width, inside the caption band. */
  predicate InRetryRegion(x: real, y: real)
  {
    x < (GLYPH_WIDTH * |RETRY_TEXT|) as real && y > (H - CAPTION_HEIGHT) as real
  }

  /**
   * `on_touch_down`. Game over: a touch in the retry region resets, any other
   * is ignored. Playing: the touch is registered; the first held touch
   * anchors the drag, the second fires when the cooldown has passed and
   * fewer than three pews fly, later ones do nothing.
   */
  function TouchDown(g: GameState, uid: int, x: real, y: real): (r: GameState)
    ensures g.gameOver ==> r == (if InRetryRegion(x, y) then ResetState(g) else g)
    ensures !g.gameOver ==> r == g.(touchUids := r.touchUids, lastTouch := r.lastTouch,
                                   lastPew := r.lastPew, pews := r.pews)
    ensures !g.gameOver ==> r.touchUids == g.touchUids + [uid]
    ensures !g.gameOver ==> (r.lastTouch != g.lastTouch ==> |g.touchUids| == 0)
    ensures !g.gameOver && |g.touchUids| == 0 ==> r.lastTouch == Some((x, y))
    ensures !g.gameOver ==>
      (|r.pews| > |g.pews| <==>
         |g.touchUids| == 1 && g.lastPew + COOLDOWN <= g.runtime && |g.pews| < MAX_PEWS)
    ensures !g.gameOver && |r.pews| > |g.pews| ==>
      r.pews == g.pews + [FiredPew(g.player)] && r.lastPew == g.runtime
    ensures !g.gameOver && |r.pews| <= |g.pews| ==> r.pews == g.pews && r.lastPew == g.lastPew
  {
    if g.gameOver then
      if InRetryRegion(x, y) then ResetState(g) else g
    else
      var uids := g.touchUids + [uid];
      if |uids| == 1 then g.(touchUids := uids, lastTouch := Some((x, y)))
      else if |uids| != 2 then g.(touchUids := uids)
      else if g.lastPew + COOLDOWN > g.runtime then g.(touchUids := uids)
      else if |g.pews| < MAX_PEWS then
        g.(touchUids := uids, lastPew := g.runtime, pews := g.pews + [FiredPew(g.player)])
      else g.(touchUids := uids)
  }

  /** A successful shot comes at least the cooldown after the previous one, and the cap of three holds. */
  lemma FireSpacing(g: GameState, uid: int, x: real, y: real)
    requires !g.gameOver && |g.pews| <= MAX_PEWS
    ensures var r := TouchDown(g, uid, x, y);
      && |r.pews| <= MAX_PEWS
      && (|r.pews| > |g.pews| ==> g.lastPew + COOLDOWN <= r.lastPew == g.runtime)
  {
  }

  /**
   * `on_touch_move`, with an unassigned drag anchor treated as the `None`
   * test of main.py intends: only the primary (first held) touch drags the ship,
   * by the truncated deltas since the anchor, and moves the anchor.
   */
  function TouchMove(g: GameState, uid: int, x: real, y: real): (r: GameState)
    ensures r == g.(player := r.player, lastTouch := r.lastTouch)
    ensures g.lastTouch.None? ==> r == g
    ensures g.gameOver || g.touchUids == [] || g.touchUids[0] != uid ==> r == g
    ensures !g.gameOver && g.lastTouch.Some? && g.touchUids != [] && g.touchUids[0] == uid ==>
      r.lastTouch == Some((x, y))
    ensures r.player != g.player ==>
      && !g.gameOver && g.lastTouch.Some? && |g.touchUids| > 0 && g.touchUids[0] == uid
    ensures InBounds(g.player) ==> InBounds(r.player) && r.player.size == g.player.size
  {
    if g.gameOver then g
    else if g.lastTouch.None? then g
    else if g.touchUids == [] then g
    else if g.touchUids[0] != uid then g
    else
      var (lx, ly) := g.lastTouch.value;
      g.(player := Drag(g.player, x - lx, y - ly), lastTouch := Some((x, y)))
  }

  /** A primary-touch drag lands the ship at the anchor delta, truncated and clamped to the window. */
  lemma TouchMoveDrags(g: GameState, x: real, y: real)
    requires !g.gameOver && g.lastTouch.Some? && |g.touchUids| > 0 && InBounds(g.player)
    ensures var r := TouchMove(g, g.touchUids[0], x, y);
      var (lx, ly) := g.lastTouch.value;
      && r.player.x == Clamp(g.player.x + Trunc(x - lx), 0, W - g.player.size)
      && r.player.y == Clamp(g.player.y + Trunc(y - ly), 0, H - g.player.size)
      && r.lastTouch == Some((x, y))
  {
    var (lx, ly) := g.lastTouch.value;
    DragIsClamped(g.player, x - lx, y - ly);
  }

  /**
   * `on_touch_up`: forgets the lifted touch. A touch that is not held (it
   * went down on the game-over screen) is ignored rather than raising.
   */
  function TouchUp(g: GameState, uid: int): (r: GameState)
    ensures r == g.(touchUids := r.touchUids)
    ensures g.gameOver || uid !in g.touchUids ==> r == g
    ensures !g.gameOver && uid in g.touchUids ==>
      |r.touchUids| == |g.touchUids| - 1 && multiset(r.touchUids) == multiset(g.touchUids) - multiset{uid}
    ensures !g.gameOver && uid in g.touchUids ==>
      exists i :: && 0 <= i < |g.touchUids| && g.touchUids[i] == uid && uid !in g.touchUids[..i]
                  && r.touchUids == g.touchUids[..i] + g.touchUids[i + 1..]
    ensures !g.gameOver && uid in g.touchUids && uid != g.touchUids[0] ==> r.touchUids[0] == g.touchUids[0]
  {
    if g.gameOver then g
    else if g.touchUids == [] then g
    else if uid !in g.touchUids then g
    else g.(touchUids := RemoveFirst(g.touchUids, uid))
  }

  /* ------------------------------------------------------------ the tick */

  /** The enemy's new position, given the enemy and the ship's centre (steering is an input of the model). */
  type Steering = (Enemy, (int, int)) -> (int, int)

  /** `center_pos` of the ship (Python 2 integer division): for a ship inside the window, a point of its box inside the window. */
  function Center(p: Player): (c: (int, int))
    ensures p.x <= c.0 <= p.x + p.size && p.y <= c.1 <= p.y + p.size
    ensures InBounds(p) ==> 0 <= c.0 <= W && 0 <= c.1 <= H
  {
    (p.x + p.size / 2, p.y + p.size / 2)
  }

  /** `center_pos` of an enemy's box (Python 2 integer division): a point of the box, midway across it. */
  function EnemyCenter(e: Enemy): (c: (int, int))
    ensures CollidePoint(EnemyRect(e), c.0, c.1)
    ensures 2 * c.0 == 2 * e.x + ENEMY_SIZE && 2 * c.1 == 2 * e.y + ENEMY_SIZE
  {
    (e.x + ENEMY_SIZE / 2, e.y + ENEMY_SIZE / 2)
  }

  /** The enemy's centre is at least 200 from `target`, so `Enemy.update` cruises instead of homing. */
  predicate Cruises(e: Enemy, target: (int, int))
  {
    var dx := target.0 - EnemyCenter(e).0;
    var dy := target.1 - EnemyCenter(e).1;
    dx * dx + dy * dy >= 200 * 200
  }

  /**
   * What `Enemy.update` fixes exactly, whatever `sin` and `sqrt` return: a
   * cruising enemy moves left by its speed, and a homing one moves by the
   * truncation of a vector of length 5, so at most 5 along each axis.
   */
  ghost predicate SteerOk(steer: Steering)
  {
    forall e: Enemy, target: (int, int) ::
      && (Cruises(e, target) ==> steer(e, target).0 == e.x - e.speed)
      && (!Cruises(e, target) ==>
            && e.x - 5 <= steer(e, target).0 <= e.x + 5
            && e.y - 5 <= steer(e, target).1 <= e.y + 5)
  }

  /** The prune of the pew list. */
  function PrunePews(ps: seq<Pew>): (r: seq<Pew>)
    ensures |r| <= |ps|
    ensures forall p :: p in r <==> p in ps && PewAlive(p)
  {
    Filter(ps, PewAlive)
  }

  /** The prune of the enemy list. */
  function PruneEnemies(es: seq<Enemy>): (r: seq<Enemy>)
    ensures |r| <= |es|
    ensures forall e :: e in r <==> e in es && EnemyAlive(e)
  {
    Filter(es, EnemyAlive)
  }

  /** Pruning twice is pruning once, and entities destroyed on screen are gone after the next prune. */
  lemma PruneIdempotent(ps: seq<Pew>, es: seq<Enemy>, p: Pew, e: Enemy)
    requires p.x >= 0
    ensures PrunePews(PrunePews(ps)) == PrunePews(ps)
    ensures PruneEnemies(PruneEnemies(es)) == PruneEnemies(es)
    ensures PewDestroy(p) !in PrunePews(ps)
    ensures EnemyDestroy(e) !in PruneEnemies(es)
  {
    FilterIdempotent(ps, PewAlive);
    FilterIdempotent(es, EnemyAlive);
  }

  /** Pruning keeps the survivors in their original order. */
  lemma PruneKeepsOrder(ps: seq<Pew>, qs: seq<Pew>, es: seq<Enemy>, fs: seq<Enemy>)
    ensures PrunePews(ps + qs) == PrunePews(ps) + PrunePews(qs)
    ensures PruneEnemies(es + fs) == PruneEnemies(es) + PruneEnemies(fs)
  {
    FilterConcat(ps, qs, PewAlive);
    FilterConcat(es, fs, EnemyAlive);
  }

  /** Every pew flies one step: the order and heights are kept, and each moves `PEW_STEP` to the right. */
  function AdvancePews(ps: seq<Pew>): (r: seq<Pew>)
    ensures |r| == |ps|
    ensures forall i :: 0 <= i < |ps| ==> r[i].y == ps[i].y && r[i].x == ps[i].x + PEW_STEP
  {
    seq(|ps|, i requires 0 <= i < |ps| => PewUpdate(ps[i]))
  }

  /** Some pew before position `j` hits `e`. */
  predicate HitBefore(e: Enemy, ps: seq<Pew>, j: int)
  {
    exists k :: 0 <= k < j && k < |ps| && HitBy(e, ps[k])
  }

  /** `j` is the first pew that hits `e`. */
  predicate FirstHit(e: Enemy, ps: seq<Pew>, j: int)
  {
    0 <= j < |ps| && HitBy(e, ps[j]) && !HitBefore(e, ps, j)
  }

  /** Outcome of one enemy's pass over the pews. */
  datatype Volley = Volley(enemy: Enemy, pews: seq<Pew>, points: int, hit: bool)

  /**
   * The inner loop of the hit test for one enemy: every pew that hits the
   * enemy (as it stands at that moment) is destroyed, the enemy's reward is
   * added, and the enemy is destroyed.
   */
  function HitPews(e: Enemy, ps: seq<Pew>, points: int): (r: Volley)
    ensures |r.pews| == |ps|
    ensures forall j :: 0 <= j < |ps| ==> r.pews[j] == ps[j] || r.pews[j] == PewDestroy(ps[j])
    ensures r.hit <==> exists j :: 0 <= j < |ps| && HitBy(e, ps[j])
    ensures r.hit ==> r.enemy == EnemyDestroy(e) && r.points == points + Points(e)
    ensures r.hit ==> exists j :: 0 <= j < |ps| && r.pews[j] == PewDestroy(ps[j])
    ensures !r.hit ==> r.enemy == e && r.pews == ps && r.points == points
    decreases |ps|
  {
    if |ps| == 0 then Volley(e, [], points, false)
    else if HitBy(e, ps[0]) then
      var rest := HitPews(EnemyDestroy(e), ps[1..], points + Points(e));
      var r := Volley(rest.enemy, [PewDestroy(ps[0])] + rest.pews, rest.points, true);
      assert EnemyDestroy(EnemyDestroy(e)) == EnemyDestroy(e) && Points(EnemyDestroy(e)) == 0;
      assert r.pews[0] == PewDestroy(ps[0]);
      assert forall j :: 1 <= j < |ps| ==> r.pews[j] == rest.pews[j - 1] && ps[1..][j - 1] == ps[j];
      r
    else
      var rest := HitPews(e, ps[1..], points);
      var r := Volley(rest.enemy, [ps[0]] + rest.pews, rest.points, rest.hit);
      assert forall j :: 1 <= j < |ps| ==> r.pews[j] == rest.pews[j - 1] && ps[1..][j - 1] == ps[j];
      r
  }

  /** The enemy as pew `j` finds it: intact up to the first hit, destroyed after it. */
  function Standing(e: Enemy, ps: seq<Pew>, j: int): Enemy
  {
    if HitBefore(e, ps, j) then EnemyDestroy(e) else e
  }

  /** Reference definition: pew `j` after the loop, destroyed iff it hits the enemy as it finds it. */
  function Tested(e: Enemy, ps: seq<Pew>, j: int): Pew
    requires 0 <= j < |ps|
  {
    if HitBy(Standing(e, ps, j), ps[j]) then PewDestroy(ps[j]) else ps[j]
  }

  /** Past the first pew, the loop goes on with the enemy as the first pew left it. */
  lemma HitPewsStep(e: Enemy, ps: seq<Pew>, points: int, j: int)
    requires 1 <= j < |ps|
    ensures HitBy(e, ps[0]) ==>
      HitPews(e, ps, points).pews[j] == HitPews(EnemyDestroy(e), ps[1..], points + Points(e)).pews[j - 1]
    ensures !HitBy(e, ps[0]) ==> HitPews(e, ps, points).pews[j] == HitPews(e, ps[1..], points).pews[j - 1]
  {
    var r := HitPews(e, ps, points);
    if HitBy(e, ps[0]) {
      var rest := HitPews(EnemyDestroy(e), ps[1..], points + Points(e));
      assert r.pews == [PewDestroy(ps[0])] + rest.pews;
    } else {
      var rest := HitPews(e, ps[1..], points);
      assert r.pews == [ps[0]] + rest.pews;
    }
  }

  /** The first pew is destroyed iff it hits the enemy. */
  lemma HitPewsFirst(e: Enemy, ps: seq<Pew>, points: int)
    requires 0 < |ps|
    ensures HitPews(e, ps, points).pews[0] == (if HitBy(e, ps[0]) then PewDestroy(ps[0]) else ps[0])
  {
    var r := HitPews(e, ps, points);
    if HitBy(e, ps[0]) {
      assert r.pews == [PewDestroy(ps[0])] + HitPews(EnemyDestroy(e), ps[1..], points + Points(e)).pews;
    } else {
      assert r.pews == [ps[0]] + HitPews(e, ps[1..], points).pews;
    }
  }

  /** The enemy as pew `j > 0` finds it, in terms of the rest of the list. */
  lemma StandingStep(e: Enemy, ps: seq<Pew>, j: int)
    requires 1 <= j < |ps|
    ensures HitBy(e, ps[0]) ==> Standing(e, ps, j) == EnemyDestroy(e)
    ensures !HitBy(e, ps[0]) ==> Standing(e, ps, j) == Standing(e, ps[1..], j - 1)
  {
    var tail := ps[1..];
    if HitBy(e, ps[0]) {
      assert HitBefore(e, ps, j) by {
        assert 0 < j && HitBy(e, ps[0]);
      }
    } else {
      if HitBefore(e, ps, j) {
        var k :| 0 <= k < j && k < |ps| && HitBy(e, ps[k]);
        assert k > 0 && tail[k - 1] == ps[k];
        assert HitBefore(e, tail, j - 1);
      }
      if HitBefore(e, tail, j - 1) {
        var k :| 0 <= k < j - 1 && k < |tail| && HitBy(e, tail[k]);
        assert ps[k + 1] == tail[k];
        assert HitBefore(e, ps, j);
      }
    }
  }

  /** The reference definition for pew `j > 0`, in terms of the rest of the list and the enemy the first pew leaves. */
  lemma TestedStep(e: Enemy, ps: seq<Pew>, j: int)
    requires 1 <= j < |ps|
    ensures Tested(e, ps, j) == Tested(if HitBy(e, ps[0]) then EnemyDestroy(e) else e, ps[1..], j - 1)
  {
    StandingStep(e, ps, j);
    assert ps[1..][j - 1] == ps[j];
    assert EnemyDestroy(EnemyDestroy(e)) == EnemyDestroy(e);
  }

  /** Pew `j` leaves the loop as the reference definition says. */
  lemma {:induction false} HitPewsAt(e: Enemy, ps: seq<Pew>, points: int, j: int)
    requires 0 <= j < |ps|
    ensures HitPews(e, ps, points).pews[j] == Tested(e, ps, j)
    decreases j
  {
    if j == 0 {
      HitPewsFirst(e, ps, points);
      assert !HitBefore(e, ps, 0);
    } else {
      var d := if HitBy(e, ps[0]) then EnemyDestroy(e) else e;
      var next := if HitBy(e, ps[0]) then points + Points(e) else points;
      HitPewsStep(e, ps, points, j);
      TestedStep(e, ps, j);
      HitPewsAt(d, ps[1..], next, j - 1);
    }
  }

  /** The pews before the first hitting one leave the loop untouched. */
  lemma BeforeFirstHit(e: Enemy, ps: seq<Pew>, points: int, j: int, k: int)
    requires FirstHit(e, ps, j) && 0 <= k < j
    ensures HitPews(e, ps, points).pews[k] == ps[k]
  {
    HitPewsAt(e, ps, points, k);
  }

  /** A pew the loop changed hit the enemy or its remains. */
  lemma HitPewsChanged(e: Enemy, ps: seq<Pew>, points: int, j: int)
    requires 0 <= j < |ps| && HitPews(e, ps, points).pews[j] != ps[j]
    ensures HitBy(e, ps[j]) || HitBy(EnemyDestroy(e), ps[j])
  {
    HitPewsAt(e, ps, points, j);
  }

  /** The first hitting pew is destroyed and the pews before it are untouched. */
  lemma HitPewsFirstHit(e: Enemy, ps: seq<Pew>, points: int, j: int)
    requires FirstHit(e, ps, j)
    ensures HitPews(e, ps, points).pews[j] == PewDestroy(ps[j])
    ensures HitPews(e, ps, points).pews[..j] == ps[..j]
  {
    var r := HitPews(e, ps, points);
    HitPewsAt(e, ps, points, j);
    forall k | 0 <= k < j
      ensures r.pews[..j][k] == ps[..j][k]
    {
      BeforeFirstHit(e, ps, points, j, k);
    }
  }

  /**
   * The pews the loop destroys are exactly those that hit the enemy as it
   * stands when they are tested: in particular a destroyed pew hit the enemy
   * or its remains, the first hitting pew is destroyed, and the pews before it
   * are untouched.
   */
  lemma HitPewsExact(e: Enemy, ps: seq<Pew>, points: int)
    ensures var r := HitPews(e, ps, points);
      forall j :: 0 <= j < |ps| ==> r.pews[j] == Tested(e, ps, j)
    ensures var r := HitPews(e, ps, points);
      forall j :: 0 <= j < |ps| && r.pews[j] != ps[j] ==> HitBy(e, ps[j]) || HitBy(EnemyDestroy(e), ps[j])
    ensures var r := HitPews(e, ps, points);
      forall j :: FirstHit(e, ps, j) ==> r.pews[j] == PewDestroy(ps[j]) && r.pews[..j] == ps[..j]
  {
    var r := HitPews(e, ps, points);
    forall j | 0 <= j < |ps|
      ensures r.pews[j] == Tested(e, ps, j)
    {
      HitPewsAt(e, ps, points, j);
    }
    forall j | 0 <= j < |ps| && r.pews[j] != ps[j]
      ensures HitBy(e, ps[j]) || HitBy(EnemyDestroy(e), ps[j])
    {
      HitPewsChanged(e, ps, points, j);
    }
    forall j | FirstHit(e, ps, j)
      ensures r.pews[j] == PewDestroy(ps[j]) && r.pews[..j] == ps[..j]
    {
      HitPewsFirstHit(e, ps, points, j);
    }
  }

  /** Outcome of the enemy loop of one tick. */
  datatype Sweep = Sweep(enemies: seq<Enemy>, pews: seq<Pew>, points: int, hit: bool, collided: bool)

  /**
   * The enemy loop of `update`: each enemy in turn is first tested against
   * the ship (a hit ends the loop) and then against every pew.
   */
  function SweepEnemies(pl: Player, es: seq<Enemy>, ps: seq<Pew>, points: int): (r: Sweep)
    ensures |r.enemies| == |es| && |r.pews| == |ps|
    ensures !r.hit ==> r.points == points
    decreases |es|
  {
    if |es| == 0 then Sweep([], ps, points, false, false)
    else if Collision(pl, EnemyRect(es[0])) then Sweep(es, ps, points, false, true)
    else
      var v := HitPews(es[0], ps, points);
      var rest := SweepEnemies(pl, es[1..], v.pews, v.points);
      Sweep([v.enemy] + rest.enemies, rest.pews, rest.points, v.hit || rest.hit, rest.collided)
  }

  /** The loop reports a collision exactly when some enemy touches the ship's outline. */
  lemma {:induction false} SweepCollided(pl: Player, es: seq<Enemy>, ps: seq<Pew>, points: int)
    ensures SweepEnemies(pl, es, ps, points).collided <==>
            exists i :: 0 <= i < |es| && Collision(pl, EnemyRect(es[i]))
    decreases |es|
  {
    if |es| > 0 && !Collision(pl, EnemyRect(es[0])) {
      var v := HitPews(es[0], ps, points);
      SweepCollided(pl, es[1..], v.pews, v.points);
      assert forall i :: 1 <= i < |es| ==> es[1..][i - 1] == es[i];
      if SweepEnemies(pl, es[1..], v.pews, v.points).collided {
        var i :| 0 <= i < |es[1..]| && Collision(pl, EnemyRect(es[1..][i]));
        assert Collision(pl, EnemyRect(es[i + 1]));
      }
    }
  }

  /** Each enemy either comes out of the loop unchanged or destroyed. */
  lemma {:induction false} SweepDestroys(pl: Player, es: seq<Enemy>, ps: seq<Pew>, points: int)
    ensures var r := SweepEnemies(pl, es, ps, points);
      forall i :: 0 <= i < |es| ==> r.enemies[i] == es[i] || r.enemies[i] == EnemyDestroy(es[i])
    decreases |es|
  {
    if |es| > 0 && !Collision(pl, EnemyRect(es[0])) {
      var v := HitPews(es[0], ps, points);
      var rest := SweepEnemies(pl, es[1..], v.pews, v.points);
      SweepDestroys(pl, es[1..], v.pews, v.points);
      var r := SweepEnemies(pl, es, ps, points);
      assert r.enemies == [v.enemy] + rest.enemies;
      forall i | 1 <= i < |es|
        ensures r.enemies[i] == es[i] || r.enemies[i] == EnemyDestroy(es[i])
      {
        assert r.enemies[i] == rest.enemies[i - 1] && es[1..][i - 1] == es[i];
      }
    }
  }

  /** With spawnable speeds, speeds stay spawnable and the score never decreases during the loop. */
  lemma {:induction false} SweepScore(pl: Player, es: seq<Enemy>, ps: seq<Pew>, points: int)
    requires SpeedsOk(es)
    ensures var r := SweepEnemies(pl, es, ps, points);
      SpeedsOk(r.enemies) && r.points >= points
    decreases |es|
  {
    if |es| > 0 && !Collision(pl, EnemyRect(es[0])) {
      var v := HitPews(es[0], ps, points);
      var rest := SweepEnemies(pl, es[1..], v.pews, v.points);
      assert Points(es[0]) >= 0;
      SpeedsOkTail(es);
      SweepScore(pl, es[1..], v.pews, v.points);
      assert SweepEnemies(pl, es, ps, points).enemies == [v.enemy] + rest.enemies;
      SpeedsOkCons(v.enemy, rest.enemies);
    }
  }

  /** Reference definition: the index of the first enemy whose box touches the ship's outline, or `|es|` when none does. */
  function FirstCrash(pl: Player, es: seq<Enemy>): (k: nat)
    ensures k <= |es|
    ensures forall i :: 0 <= i < k ==> !Collision(pl, EnemyRect(es[i]))
    ensures k < |es| ==> Collision(pl, EnemyRect(es[k]))
    decreases |es|
  {
    if |es| == 0 then 0
    else if Collision(pl, EnemyRect(es[0])) then 0
    else
      var k := FirstCrash(pl, es[1..]);
      assert forall i :: 1 <= i < |es| ==> es[1..][i - 1] == es[i];
      k + 1
  }

  /** Reference sum: the rewards of the enemies that `after` shows changed, each valued where it stood in `es`. */
  function KillValue(es: seq<Enemy>, after: seq<Enemy>): int
    requires |after| == |es|
    decreases |es|
  {
    if |es| == 0 then 0
    else (if after[0] != es[0] then Points(es[0]) else 0) + KillValue(es[1..], after[1..])
  }

  /** Nothing changed, nothing to pay. */
  lemma {:induction false} KillValueNone(es: seq<Enemy>)
    ensures KillValue(es, es) == 0
    decreases |es|
  {
    if |es| > 0 {
      KillValueNone(es[1..]);
    }
  }

  /** The loop stops at the first enemy that touches the ship: it and every enemy after it come out unchanged. */
  lemma {:induction false} SweepStopsAtCrash(pl: Player, es: seq<Enemy>, ps: seq<Pew>, points: int)
    ensures SweepEnemies(pl, es, ps, points).enemies[FirstCrash(pl, es)..] == es[FirstCrash(pl, es)..]
    decreases |es|
  {
    if |es| > 0 && !Collision(pl, EnemyRect(es[0])) {
      var v := HitPews(es[0], ps, points);
      var rest := SweepEnemies(pl, es[1..], v.pews, v.points);
      SweepStopsAtCrash(pl, es[1..], v.pews, v.points);
      var k := FirstCrash(pl, es[1..]);
      assert FirstCrash(pl, es) == k + 1;
      var r := SweepEnemies(pl, es, ps, points);
      assert r.enemies == [v.enemy] + rest.enemies;
      assert r.enemies[k + 1..] == rest.enemies[k..];
      assert es[k + 1..] == es[1..][k..];
    }
  }

  /** An enemy the loop destroys had some pew flying strictly within its height. */
  lemma {:induction false} SweepKillsNeedPew(pl: Player, es: seq<Enemy>, ps: seq<Pew>, points: int)
    ensures var r := SweepEnemies(pl, es, ps, points);
      forall i :: 0 <= i < |es| && r.enemies[i] != es[i] ==>
        exists j :: 0 <= j < |ps| && es[i].y < ps[j].y < es[i].y + ENEMY_SIZE
    decreases |es|
  {
    if |es| > 0 && !Collision(pl, EnemyRect(es[0])) {
      var v := HitPews(es[0], ps, points);
      var rest := SweepEnemies(pl, es[1..], v.pews, v.points);
      SweepKillsNeedPew(pl, es[1..], v.pews, v.points);
      var r := SweepEnemies(pl, es, ps, points);
      assert r.enemies == [v.enemy] + rest.enemies;
      forall i | 0 <= i < |es| && r.enemies[i] != es[i]
        ensures exists j :: 0 <= j < |ps| && es[i].y < ps[j].y < es[i].y + ENEMY_SIZE
      {
        if i == 0 {
          assert v.hit;
          var j :| 0 <= j < |ps| && HitBy(es[0], ps[j]);
        } else {
          assert r.enemies[i] == rest.enemies[i - 1] && es[1..][i - 1] == es[i];
          var j :| 0 <= j < |v.pews| && es[i].y < v.pews[j].y < es[i].y + ENEMY_SIZE;
          assert v.pews[j].y == ps[j].y;
        }
      }
    }
  }

  /** The loop adds exactly the rewards of the enemies it destroys, each valued where it stood. */
  lemma {:induction false} SweepScoresKills(pl: Player, es: seq<Enemy>, ps: seq<Pew>, points: int)
    ensures var r := SweepEnemies(pl, es, ps, points);
      r.points == points + KillValue(es, r.enemies)
    decreases |es|
  {
    if |es| > 0 {
      if Collision(pl, EnemyRect(es[0])) {
        KillValueNone(es);
      } else {
        var v := HitPews(es[0], ps, points);
        var rest := SweepEnemies(pl, es[1..], v.pews, v.points);
        SweepScoresKills(pl, es[1..], v.pews, v.points);
        var r := SweepEnemies(pl, es, ps, points);
        assert r.enemies == [v.enemy] + rest.enemies;
        assert r.enemies[1..] == rest.enemies;
        assert v.points == points + (if v.enemy != es[0] then Points(es[0]) else 0) by {
          if v.hit && v.enemy == es[0] {
            assert es[0].x == -W;
          }
        }
      }
    }
  }

  /** No enemy before position `n`, intact or destroyed, can touch pew `p`. */
  predicate Untouched(es: seq<Enemy>, n: int, p: Pew)
  {
    forall k :: 0 <= k < n && k < |es| ==> !HitBy(es[k], p) && !HitBy(EnemyDestroy(es[k]), p)
  }

  /**
   * Pew `j` is the first pew to hit enemy `i`, and no enemy before `i` can
   * have touched it or any pew before it.
   */
  predicate ClearShot(es: seq<Enemy>, ps: seq<Pew>, i: int, j: int)
  {
    && 0 <= i < |es| && 0 <= j < |ps|
    && HitBy(es[i], ps[j]) && Untouched(es, i, ps[j])
    && forall m :: 0 <= m < j ==> !HitBy(es[i], ps[m]) && Untouched(es, i, ps[m])
  }

  /** A clear shot on the first enemy is destroyed by its inner loop. */
  lemma ClearShotFirst(es: seq<Enemy>, ps: seq<Pew>, points: int, j: int)
    requires ClearShot(es, ps, 0, j)
    ensures HitPews(es[0], ps, points).pews[j] == PewDestroy(ps[j])
  {
    assert FirstHit(es[0], ps, j);
    HitPewsFirstHit(es[0], ps, points, j);
  }

  /** A clear shot on a later enemy survives the first enemy's inner loop, and stays clear. */
  lemma ClearShotStep(es: seq<Enemy>, ps: seq<Pew>, points: int, i: int, j: int)
    requires 1 <= i && ClearShot(es, ps, i, j)
    ensures var qs := HitPews(es[0], ps, points).pews;
      qs[j] == ps[j] && ClearShot(es[1..], qs, i - 1, j)
  {
    var qs := HitPews(es[0], ps, points).pews;
    forall m | 0 <= m <= j
      ensures qs[m] == ps[m]
    {
      VolleySpares(es[0], ps, points, m);
    }
    var tail := es[1..];
    assert tail[i - 1] == es[i];
    forall m, k | 0 <= m <= j && 0 <= k < i - 1
      ensures !HitBy(tail[k], qs[m]) && !HitBy(EnemyDestroy(tail[k]), qs[m])
    {
      assert tail[k] == es[k + 1];
    }
  }

  /** A pew that neither the enemy nor its remains can touch leaves the inner loop unchanged. */
  lemma VolleySpares(e: Enemy, ps: seq<Pew>, points: int, j: int)
    requires 0 <= j < |ps| && !HitBy(e, ps[j]) && !HitBy(EnemyDestroy(e), ps[j])
    ensures HitPews(e, ps, points).pews[j] == ps[j]
  {
    HitPewsAt(e, ps, points, j);
  }

  /** Pews only move right during the loop, each by whole destroy jumps, and keep their heights. */
  lemma {:induction false} SweepMovesPews(pl: Player, es: seq<Enemy>, ps: seq<Pew>, points: int)
    ensures var r := SweepEnemies(pl, es, ps, points);
      forall j :: 0 <= j < |ps| ==> r.pews[j].y == ps[j].y && r.pews[j].x >= ps[j].x
    decreases |es|
  {
    if |es| > 0 && !Collision(pl, EnemyRect(es[0])) {
      var v := HitPews(es[0], ps, points);
      SweepMovesPews(pl, es[1..], v.pews, v.points);
      assert forall j :: 0 <= j < |ps| ==> v.pews[j].y == ps[j].y && v.pews[j].x >= ps[j].x;
    }
  }

  /** A pew no enemy before the crash can touch, intact or destroyed, leaves the loop unchanged. */
  lemma {:induction false} SweepSparesPew(pl: Player, es: seq<Enemy>, ps: seq<Pew>, points: int, j: int)
    requires 0 <= j < |ps| && Untouched(es, FirstCrash(pl, es), ps[j])
    ensures SweepEnemies(pl, es, ps, points).pews[j] == ps[j]
    decreases |es|
  {
    if |es| > 0 && !Collision(pl, EnemyRect(es[0])) {
      var v := HitPews(es[0], ps, points);
      assert FirstCrash(pl, es) == FirstCrash(pl, es[1..]) + 1;
      VolleySpares(es[0], ps, points, j);
      assert Untouched(es[1..], FirstCrash(pl, es[1..]), v.pews[j]) by {
        forall k | 0 <= k < FirstCrash(pl, es[1..]) && k < |es[1..]|
          ensures !HitBy(es[1..][k], ps[j]) && !HitBy(EnemyDestroy(es[1..][k]), ps[j])
        {
          assert es[1..][k] == es[k + 1];
        }
      }
      SweepSparesPew(pl, es[1..], v.pews, v.points, j);
    }
  }

  /** An enemy before the crash that a pew hits, a pew no earlier enemy can touch, is destroyed. */
  lemma {:induction false} SweepKills(pl: Player, es: seq<Enemy>, ps: seq<Pew>, points: int, i: int, j: int)
    requires 0 <= i < FirstCrash(pl, es) && 0 <= j < |ps|
    requires HitBy(es[i], ps[j]) && Untouched(es, i, ps[j])
    ensures SweepEnemies(pl, es, ps, points).enemies[i] == EnemyDestroy(es[i])
    decreases i
  {
    var v := HitPews(es[0], ps, points);
    var rest := SweepEnemies(pl, es[1..], v.pews, v.points);
    var r := SweepEnemies(pl, es, ps, points);
    assert r.enemies == [v.enemy] + rest.enemies;
    if i == 0 {
      assert v.hit;
    } else {
      assert FirstCrash(pl, es) == FirstCrash(pl, es[1..]) + 1;
      VolleySpares(es[0], ps, points, j);
      assert es[1..][i - 1] == es[i];
      assert Untouched(es[1..], i - 1, v.pews[j]) by {
        forall k | 0 <= k < i - 1
          ensures !HitBy(es[1..][k], ps[j]) && !HitBy(EnemyDestroy(es[1..][k]), ps[j])
        {
          assert es[1..][k] == es[k + 1];
        }
      }
      SweepKills(pl, es[1..], v.pews, v.points, i - 1, j);
      assert r.enemies[i] == rest.enemies[i - 1];
    }
  }

  /** The shot that makes a clear hit on enemy `i` is destroyed there: it ends at least a window width further right. */
  lemma {:induction false} SweepDestroysShot(pl: Player, es: seq<Enemy>, ps: seq<Pew>, points: int, i: int, j: int)
    requires i < FirstCrash(pl, es) && ClearShot(es, ps, i, j)
    ensures SweepEnemies(pl, es, ps, points).pews[j].x >= ps[j].x + W
    decreases i
  {
    var v := HitPews(es[0], ps, points);
    var rest := SweepEnemies(pl, es[1..], v.pews, v.points);
    assert SweepEnemies(pl, es, ps, points).pews == rest.pews;
    if i == 0 {
      ClearShotFirst(es, ps, points, j);
      SweepMovesPews(pl, es[1..], v.pews, v.points);
    } else {
      assert FirstCrash(pl, es) == FirstCrash(pl, es[1..]) + 1;
      ClearShotStep(es, ps, points, i, j);
      SweepDestroysShot(pl, es[1..], v.pews, v.points, i - 1, j);
    }
  }

  /**
   * What the enemy loop does, enemy by enemy: it stops at the first enemy
   * that touches the ship, leaving that one and the rest unchanged; an enemy
   * it destroys had a pew flying within its height, and an enemy before the
   * crash hit by a pew no earlier enemy could touch is destroyed; the score
   * grows by exactly the rewards of the destroyed enemies. Pews keep their
   * heights and only move right; a pew no enemy before the crash can touch is
   * unchanged, and a clear shot is destroyed.
   */
  lemma SweepExact(pl: Player, es: seq<Enemy>, ps: seq<Pew>, points: int)
    ensures var r := SweepEnemies(pl, es, ps, points);
      var k := FirstCrash(pl, es);
      && r.enemies[k..] == es[k..]
      && (forall i :: 0 <= i < |es| && r.enemies[i] != es[i] ==>
            exists j :: 0 <= j < |ps| && es[i].y < ps[j].y < es[i].y + ENEMY_SIZE)
      && (forall i, j :: 0 <= i < k && 0 <= j < |ps| && HitBy(es[i], ps[j]) && Untouched(es, i, ps[j]) ==>
            r.enemies[i] == EnemyDestroy(es[i]))
      && r.points == points + KillValue(es, r.enemies)
    ensures var r := SweepEnemies(pl, es, ps, points);
      var k := FirstCrash(pl, es);
      && (forall j :: 0 <= j < |ps| ==> r.pews[j].y == ps[j].y && r.pews[j].x >= ps[j].x)
      && (forall j :: 0 <= j < |ps| && Untouched(es, k, ps[j]) ==> r.pews[j] == ps[j])
      && (forall i, j :: i < k && ClearShot(es, ps, i, j) ==> r.pews[j].x >= ps[j].x + W)
  {
    var r := SweepEnemies(pl, es, ps, points);
    var k := FirstCrash(pl, es);
    SweepStopsAtCrash(pl, es, ps, points);
    SweepKillsNeedPew(pl, es, ps, points);
    SweepScoresKills(pl, es, ps, points);
    SweepMovesPews(pl, es, ps, points);
    forall i, j | 0 <= i < k && 0 <= j < |ps| && HitBy(es[i], ps[j]) && Untouched(es, i, ps[j])
      ensures r.enemies[i] == EnemyDestroy(es[i])
    {
      SweepKills(pl, es, ps, points, i, j);
    }
    forall j | 0 <= j < |ps| && Untouched(es, k, ps[j])
      ensures r.pews[j] == ps[j]
    {
      SweepSparesPew(pl, es, ps, points, j);
    }
    forall i, j | i < k && ClearShot(es, ps, i, j)
      ensures r.pews[j].x >= ps[j].x + W
    {
      SweepDestroysShot(pl, es, ps, points, i, j);
    }
  }

  /** Dropping the first enemy keeps the speeds spawnable. */
  lemma SpeedsOkTail(es: seq<Enemy>)
    requires SpeedsOk(es) && |es| > 0
    ensures SpeedsOk(es[1..])
  {
    forall i | 0 <= i < |es| - 1
      ensures 1 <= es[1..][i].speed <= 4
    {
      assert es[1..][i] == es[i + 1];
    }
  }

  /** Putting an enemy with a spawnable speed in front keeps the speeds spawnable. */
  lemma SpeedsOkCons(e: Enemy, es: seq<Enemy>)
    requires 1 <= e.speed <= 4 && SpeedsOk(es)
    ensures SpeedsOk([e] + es)
  {
    forall i | 0 <= i < |es| + 1
      ensures 1 <= ([e] + es)[i].speed <= 4
    {
      if i > 0 {
        assert ([e] + es)[i] == es[i - 1];
      }
    }
  }

  function Relocate(e: Enemy, pos: (int, int)): (r: Enemy)
    ensures r.speed == e.speed
  {
    e.(x := pos.0, y := pos.1)
  }

  /** Every enemy moves to where steering puts it; speeds are kept. */
  function SteerAll(es: seq<Enemy>, steer: Steering, target: (int, int)): (r: seq<Enemy>)
    ensures |r| == |es|
    ensures forall i :: 0 <= i < |es| ==> r[i].speed == es[i].speed
    ensures SpeedsOk(es) ==> SpeedsOk(r)
    ensures forall i :: 0 <= i < |es| ==> (r[i].x, r[i].y) == steer(es[i], target)
  {
    var r := seq(|es|, i requires 0 <= i < |es| => Relocate(es[i], steer(es[i], target)));
    assert forall i :: 0 <= i < |es| ==> r[i] == Relocate(es[i], steer(es[i], target));
    r
  }

  function Spawned(spawn: Option<Enemy>): seq<Enemy>
  {
    if spawn.Some? then [spawn.value] else []
  }

  /**
   * `update(dt)`: counts the tick, prunes, advances the pews, runs the enemy
   * loop (a collision with the ship ends the game at once), then appends the
   * spawned enemy, if the random roll produced one, and steers every enemy.
   */
  function Tick(g: GameState, dt: real, spawn: Option<Enemy>, steer: Steering): (r: GameState)
    ensures r.ticks == g.ticks + 1 && r.runtime == g.runtime + dt
    ensures r.topPoints == g.topPoints && r.player == g.player && r.touchUids == g.touchUids
    ensures r.lastPew == g.lastPew
    ensures |r.pews| <= |g.pews|
    ensures SpeedsOk(g.enemies) ==> r.points >= g.points
    ensures r == g.(ticks := r.ticks, runtime := r.runtime, pews := r.pews, enemies := r.enemies,
                    points := r.points, caption := r.caption, gameOver := r.gameOver,
                    toggleCounter := r.toggleCounter, tickScheduled := r.tickScheduled,
                    toggleScheduled := r.toggleScheduled)
  {
    var flying := AdvancePews(PrunePews(g.pews));
    var s := SweepEnemies(g.player, PruneEnemies(g.enemies), flying, g.points);
    var g1 := g.(ticks := g.ticks + 1, runtime := g.runtime + dt,
                 pews := s.pews, enemies := s.enemies, points := s.points,
                 caption := if s.hit then Score(s.points) else g.caption);
    assert SpeedsOk(g.enemies) ==> s.points >= g.points by {
      var es := PruneEnemies(g.enemies);
      if SpeedsOk(g.enemies) {
        forall i | 0 <= i < |es|
          ensures 1 <= es[i].speed <= 4
        {
          assert es[i] in g.enemies;
        }
        SweepScore(g.player, es, flying, g.points);
      }
    }
    if s.collided then EndGame(g1).(gameOver := true)
    else g1.(enemies := SteerAll(s.enemies + Spawned(spawn), steer, Center(g.player)))
  }

  /**
   * A destroyed enemy is far from a ship inside the window, so it cruises:
   * steering leaves it past the prune line.
   */
  lemma DestroyedStaysGone(e: Enemy, steer: Steering, pl: Player)
    requires SteerOk(steer) && InBounds(pl) && e.speed >= 0
    ensures !EnemyAlive(Relocate(EnemyDestroy(e), steer(EnemyDestroy(e), Center(pl))))
  {
    var d, c := EnemyDestroy(e), Center(pl);
    var dx := c.0 - EnemyCenter(d).0;
    assert dx >= 790;
    assert dx * dx >= 790 * dx >= 790 * 790;
    assert Cruises(d, c);
  }

  /**
   * Every enemy the hit loop of a tick destroys is still past the prune line
   * once the tick has steered it, so the next tick's prune drops it before its
   * hit loop, and a kill pays out in one tick only.
   */
  lemma TickDropsDestroyed(g: GameState, dt: real, spawn: Option<Enemy>, steer: Steering)
    requires Valid(g) && !g.gameOver && SteerOk(steer)
    ensures var es := PruneEnemies(g.enemies);
      var s := SweepEnemies(g.player, es, AdvancePews(PrunePews(g.pews)), g.points);
      var r := Tick(g, dt, spawn, steer);
      !r.gameOver ==>
        && |es| <= |r.enemies|
        && forall i :: 0 <= i < |es| && s.enemies[i] != es[i] ==> !EnemyAlive(r.enemies[i])
  {
    var es := PruneEnemies(g.enemies);
    var flying := AdvancePews(PrunePews(g.pews));
    var s := SweepEnemies(g.player, es, flying, g.points);
    var r := Tick(g, dt, spawn, steer);
    if !s.collided {
      SweepDestroys(g.player, es, flying, g.points);
      SweepScore(g.player, es, flying, g.points) by {
        forall i | 0 <= i < |es|
          ensures 1 <= es[i].speed <= 4
        {
          assert es[i] in g.enemies;
        }
      }
      var spawned := s.enemies + Spawned(spawn);
      assert r.enemies == SteerAll(spawned, steer, Center(g.player));
      forall i | 0 <= i < |es| && s.enemies[i] != es[i]
        ensures !EnemyAlive(r.enemies[i])
      {
        assert s.enemies[i] == EnemyDestroy(es[i]) && spawned[i] == s.enemies[i];
        assert r.enemies[i] == Relocate(spawned[i], steer(spawned[i], Center(g.player)));
        DestroyedStaysGone(es[i], steer, g.player);
      }
    }
  }

  /** The spawned enemy, if any, is one `Enemy()` can construct. */
  predicate SpawnOk(spawn: Option<Enemy>)
  {
    spawn.Some? ==> ValidSpawn(spawn.value)
  }

  /** A tick of a running game keeps the state invariant. */
  lemma TickKeepsValid(g: GameState, dt: real, spawn: Option<Enemy>, steer: Steering)
    requires Valid(g) && !g.gameOver && SpawnOk(spawn)
    ensures Valid(Tick(g, dt, spawn, steer))
  {
    var es := PruneEnemies(g.enemies);
    var flying := AdvancePews(PrunePews(g.pews));
    forall i | 0 <= i < |es|
      ensures 1 <= es[i].speed <= 4
    {
      assert es[i] in g.enemies;
    }
    SweepScore(g.player, es, flying, g.points);
    var s := SweepEnemies(g.player, es, flying, g.points);
    if !s.collided {
      var spawned := s.enemies + Spawned(spawn);
      forall i | 0 <= i < |spawned|
        ensures 1 <= spawned[i].speed <= 4
      {
        if i >= |s.enemies| {
          assert spawned[i] == spawn.value;
        }
      }
    }
  }

  /**
   * A tick of a running game ends it exactly when some enemy that survives the
   * prune touches the ship's outline; the game-over screen then starts on the
   * first caption of its cycle, with the tick callback swapped for the toggle.
   */
  lemma TickEndsGame(g: GameState, dt: real, spawn: Option<Enemy>, steer: Steering)
    requires Valid(g) && !g.gameOver
    ensures var r := Tick(g, dt, spawn, steer);
      && (r.gameOver <==> exists e :: e in PruneEnemies(g.enemies) && Collision(g.player, EnemyRect(e)))
      && (r.gameOver ==> r.caption == GameOverBanner && r.toggleCounter == 1)
      && (r.gameOver ==> !r.tickScheduled && r.toggleScheduled)
      && (!r.gameOver ==> r.tickScheduled && !r.toggleScheduled && r.toggleCounter == 0)
  {
    var es := PruneEnemies(g.enemies);
    var flying := AdvancePews(PrunePews(g.pews));
    SweepCollided(g.player, es, flying, g.points);
    if exists e :: e in es && Collision(g.player, EnemyRect(e)) {
      var e :| e in es && Collision(g.player, EnemyRect(e));
      var i :| 0 <= i < |es| && es[i] == e;
    }
  }
}

=== FILE: geometry.dfy ===
/**
 * Window extents, the pygame rectangle used for hit tests, and the two
 * Python numeric conversions the game relies on.
 */
module Geometry {

  /** Window width and height: Kivy's `Window` is replaced by its default size, 800x600. */
  const W: int := 800
  const H: int := 600

  /** An axis-aligned rectangle given by its left/top corner and its extent, as pygame's `Rect`. */
  datatype Rect = Rect(left: int, top: int, w: int, h: int)

  /**
   * pygame's `Rect.collidepoint`. The library is not part of this model; it is
   * assumed to test half-open containment, left and top inclusive.
   */
  predicate CollidePoint(r: Rect, x: int, y: int)
  {
    r.left <= x < r.left + r.w && r.top <= y < r.top + r.h
  }

  /** Python's `int()` on a float: truncation toward zero. */
  function Trunc(v: real): (n: int)
    ensures v >= 0.0 ==> 0 <= n && n as real <= v < n as real + 1.0
    ensures v < 0.0 ==> n <= 0 && n as real - 1.0 < v <= n as real
  {
    if v >= 0.0 then v.Floor else -((-v).Floor)
  }

  /** Truncation toward zero is odd, unlike flooring. */
  lemma TruncNegate(v: real)
    ensures Trunc(-v) == -Trunc(v)
  {
  }

  function Clamp(v: int, lo: int, hi: int): int
  {
    if v < lo then lo else if v > hi then hi else v
  }
}

=== FILE: lists.dfy ===
/**
 * The two list operations of the game loop: Python's filtering list
 * comprehension (the per-tick prune) and `list.remove` (a lifted touch).
 */
module Lists {

  /** `[x for x in s if keep(x)]`. */
  function Filter<T(!new)>(s: seq<T>, keep: T -> bool): (r: seq<T>)
    ensures |r| <= |s|
    ensures forall x :: x in r <==> x in s && keep(x)
    ensures forall i :: 0 <= i < |r| ==> keep(r[i])
  {
    if |s| == 0 then []
    else if keep(s[0]) then [s[0]] + Filter(s[1..], keep)
    else Filter(s[1..], keep)
  }

  /** Filtering preserves order: it distributes over concatenation. */
  lemma {:induction false} FilterConcat<T(!new)>(a: seq<T>, b: seq<T>, keep: T -> bool)
    ensures Filter(a + b, keep) == Filter(a, keep) + Filter(b, keep)
    decreases |a|
  {
    if |a| > 0 {
      assert (a + b)[1..] == a[1..] + b;
      FilterConcat(a[1..], b, keep);
    } else {
      assert a + b == b;
    }
  }

  /** A sequence whose every element is kept passes through unchanged. */
  lemma {:induction false} FilterKeepsAll<T(!new)>(s: seq<T>, keep: T -> bool)
    requires forall i :: 0 <= i < |s| ==> keep(s[i])
    ensures Filter(s, keep) == s
    decreases |s|
  {
    if |s| > 0 {
      FilterKeepsAll(s[1..], keep);
    }
  }

  /** Filtering is idempotent: a second sweep with the same test keeps everything. */
  lemma FilterIdempotent<T(!new)>(s: seq<T>, keep: T -> bool)
    ensures Filter(Filter(s, keep), keep) == Filter(s, keep)
  {
    FilterKeepsAll(Filter(s, keep), keep);
  }

  /** `list.index(x)`: the position of the first occurrence of `x`. */
  function FirstIndex<T(==)>(s: seq<T>, x: T): (i: nat)
    requires x in s
    ensures i < |s| && s[i] == x && x !in s[..i]
  {
    if s[0] == x then 0
    else
      var j := FirstIndex(s[1..], x);
      assert s[..j + 1] == [s[0]] + s[1..][..j];
      j + 1
  }

  /** `list.remove(x)` on a list that holds `x`: drops its first occurrence and keeps the rest in order. */
  function RemoveFirst<T(==)>(s: seq<T>, x: T): (r: seq<T>)
    requires x in s
    ensures |r| == |s| - 1
    ensures multiset(r) == multiset(s) - multiset{x}
    ensures exists i :: 0 <= i < |s| && s[i] == x && x !in s[..i] && r == s[..i] + s[i + 1..]
  {
    var i := FirstIndex(s, x);
    assert s == s[..i] + [s[i]] + s[i + 1..];
    s[..i] + s[i + 1..]
  }
}

=== FILE: play.dfy ===
/**
 * The game as an event-driven machine: touch events and the two periodic
 * callbacks, delivered one at a time (the host dispatches callbacks on a
 * single thread), each mapped to the handler of main.py.
 */
module Play {
  import opened Entities
  import opened Game

  /**
   * One callback of the host. A `Frame` carries the tick length, the result of
   * the spawn roll, and the steering of the enemies, which the model takes as
   * inputs; a `Blink` is one firing of the 1 Hz caption toggle.
   */
  datatype Event =
    | TouchDownAt(uid: int, x: real, y: real)
    | TouchMoveTo(uid: int, x: real, y: real)
    | TouchUpOf(uid: int)
    | Frame(dt: real, spawn: Option<Enemy>, steer: Steering)
    | Blink

  /** Inputs the host, the random number generator and `Enemy.update` can actually produce. */
  ghost predicate Admissible(ev: Event)
  {
    ev.Frame? ==> SpawnOk(ev.spawn) && SteerOk(ev.steer)
  }

  /**
   * Dispatches one event; a periodic callback only runs while it is scheduled.
   * Only a frame ends a run or raises the score, only a tap on the retry
   * caption leaves the game-over screen, and only that tap moves the best score.
   */
  function Step(g: GameState, ev: Event): (r: GameState)
    ensures !g.gameOver && r.gameOver ==> ev.Frame? && g.tickScheduled
    ensures g.gameOver && !r.gameOver ==> ev.TouchDownAt? && InRetryRegion(ev.x, ev.y)
    ensures 0 <= g.points < r.points ==> ev.Frame? && g.tickScheduled
    ensures r.topPoints != g.topPoints ==> ev.TouchDownAt? && g.gameOver && InRetryRegion(ev.x, ev.y)
  {
    match ev
    case TouchDownAt(uid, x, y) => TouchDown(g, uid, x, y)
    case TouchMoveTo(uid, x, y) => TouchMove(g, uid, x, y)
    case TouchUpOf(uid) => TouchUp(g, uid)
    case Frame(dt, spawn, steer) => if g.tickScheduled then Tick(g, dt, spawn, steer) else g
    case Blink => if g.toggleScheduled then ToggleScore(g) else g
  }

  /** Every event keeps the invariant, and the best score never decreases. */
  lemma StepKeepsValid(g: GameState, ev: Event)
    requires Valid(g) && Admissible(ev)
    ensures Valid(Step(g, ev))
    ensures Step(g, ev).topPoints >= g.topPoints
  {
    match ev
    case TouchDownAt(uid, x, y) =>
    case TouchMoveTo(uid, x, y) =>
    case TouchUpOf(uid) =>
    case Frame(dt, spawn, steer) =>
      if g.tickScheduled {
        TickKeepsValid(g, dt, spawn, steer);
      }
    case Blink =>
  }

  /** The state after delivering `evs` in order. */
  function Run(g: GameState, evs: seq<Event>): GameState
    decreases |evs|
  {
    if |evs| == 0 then g else Run(Step(g, evs[0]), evs[1..])
  }

  /**
   * Along any run of admissible events the invariant holds: the ship stays in
   * the window, at most three pews fly, exactly one callback is scheduled, and
   * the best score never decreases.
   */
  lemma {:induction false} RunKeepsValid(g: GameState, evs: seq<Event>)
    requires Valid(g)
    requires forall i :: 0 <= i < |evs| ==> Admissible(evs[i])
    ensures Valid(Run(g, evs))
    ensures Run(g, evs).topPoints >= g.topPoints
    decreases |evs|
  {
    if |evs| > 0 {
      StepKeepsValid(g, evs[0]);
      assert forall i :: 0 <= i < |evs| - 1 ==> evs[1..][i] == evs[i + 1];
      RunKeepsValid(Step(g, evs[0]), evs[1..]);
    }
  }

  /** Every state reachable from start-up keeps the ship inside the window and at most three pews alive. */
  lemma Reachable(evs: seq<Event>)
    requires forall i :: 0 <= i < |evs| ==> Admissible(evs[i])
    ensures var g := Run(Init(), evs);
      && InBounds(g.player) && |g.pews| <= MAX_PEWS
      && g.tickScheduled != g.toggleScheduled
      && g.topPoints >= 0
  {
    RunKeepsValid(Init(), evs);
  }
}
